=== FILE: README.md ===
# Point-of-sale billing, cart and records — a Dafny model

This project models the bespoke logic of a small shop's point-of-sale
application (a Django site with a JavaScript billing page):

- **Billing** (`store/views.py`, the POST path of `billing`). The
  request is resolved against an in-memory copy of the database: products,
  customers, sales, sale lines and the automatic-id counters. The view
  finds or creates the customer by phone when a name is given. It numbers
  the invoice `INV-` + (highest sale id + 1) zero-padded to four digits. It
  inserts the sale with the caller's total and payment method. Then, line by
  line, it looks the product up, writes a sale line and lowers the stock.
  `Billing.Bill` is the whole request as a function of the old state.
  `Store.Store.Billing` is the same request as an imperative method on a
  store object whose tables are fields; it is proved equal to `Bill`. The
  lemmas beside `Bill` state what a request does.
- **Records** (`store/models.py`): the four row kinds as datatypes; the
  constraints the database enforces (non-negative stock and quantity sold,
  unique SKU, unique invoice number, foreign keys, automatic ids) as
  `Database.Db.Valid`; the deletion rules of the foreign keys (cascade, set
  null) as functions on the database; the payment-method choices; and the
  `is_low_stock` alert with the stock filters of the views.
- **Cart** (`static/js/cart.js`): the page's cart array and the grand
  total shown under it, as a class whose handlers change the entries in
  place; the checks and request body of `generateInvoice`; and `getCookie`.
  The JavaScript string operations it uses (`trim`, `split`, `substring`)
  are in `JsText`.

Money is integer cents. Ids are natural numbers.

Points where the code behaves otherwise than a first reading of the view
suggests:

- **Oversell.** The view never compares stock with the quantity sold.
  However, the stock column is a positive-integer field, and Django gives
  such a column a database check that the value is at least 0. So a line
  that would take a product below zero fails when the product is saved.
  The sale line for that line has already been written by then
  (`Billing.BillOversold`). `Billing.ApplyLinesSucceedsIff` states exactly
  when the lines go through. The quantity-sold column refuses a negative
  quantity when its sale line is inserted (`Billing.BillNegativeQuantity`).
- **No rollback.** Nothing wraps the request in a transaction. A failure
  part-way leaves the customer, the sale, and earlier lines and stock
  decrements in place (`Billing.BillUnknownProduct`,
  `Billing.BillNegativeQuantity`, `Billing.BillOversold`,
  `Billing.BillMissingItems`, `Billing.BillCreatesCustomer`).
- **Payment method not enforced.** The payment-method choices are
  checked by forms, not when a row is created. Billing stores the string
  it is sent (`Billing.BillCreated`).
- **Ambiguous phone.** The phone column is not unique. When two customers
  share the phone, `get_or_create` raises, and nothing is written
  (`Billing.BillAmbiguousPhone`).

## Model

| member | source | states |
|---|---|---|
| `Models.ParsePaymentMethod` | store/models.py:39-44 | a stored value is recognised as a choice only if it is that choice's code |
| `Models.PaymentMethodRoundTrip` | store/models.py:39-44 | every choice (cash, card, upi) reads back from its stored code |
| `Models.LowStock` | store/views.py:49 | the low-stock query (`quantity < 5`) selects exactly the products whose `is_low_stock` holds |
| `Models.StockFiltersPartition` | store/views.py:215-216 | with non-negative stock, the products the billing page offers (stock above 0, views.py:197) and the out-of-stock ones split the products; out-of-stock products are also low on stock |
| `Database.FilterAppend` | store/models.py:50 | removing rows keeps the remaining rows in their order |
| `Database.FilterCount` | store/models.py:50-51 | a cascade keeps every copy of each row it keeps and no copy of a row it drops |
| `Database.LinesOfNewSale` | store/models.py:50 | the lines of a sale no earlier row belongs to are exactly the rows appended for it |
| `Database.DeleteSale` | store/models.py:50 | deleting a sale deletes every copy of its lines and keeps every copy of the other lines; the constraints still hold; the id counters are left as they were, so no id is reused |
| `Database.DeleteProduct` | store/models.py:51 | deleting a product deletes every line that sold it and keeps every copy of the other lines; the constraints still hold; the id counters are left as they were, so no id is reused |
| `Database.DeleteCustomer` | store/models.py:37 | deleting a customer keeps every sale and clears the customer reference of that customer's sales only; the id counters are left as they were, so no id is reused |
| `Database.DeleteCashier` | store/models.py:36 | deleting a cashier deletes their sales and all of those sales' lines, keeps every copy of the other lines, and the constraints still hold; the id counters are left as they were, so no id is reused |
| `Invoice.ZeroPad` | store/views.py:170 | the padded number is all digits and at least four long |
| `Invoice.InvoiceNo` | store/views.py:170 | an invoice number starts with `INV-` and has at least four characters after it |
| `Invoice.InvoiceRoundTrip` | store/views.py:170 | the digits after `INV-` read back as the number they were built from |
| `Invoice.InvoiceNoInjective` | store/views.py:170 | different numbers give different invoice numbers |
| `Invoice.InvoiceNoLength` | store/views.py:170 | below 10000 exactly four digits follow `INV-`; from 10000 on, the unpadded digits follow it |
| `Invoice.FirstInvoiceNo` | store/views.py:170 | sequence number 1 gives `INV-0001` |
| `Billing.HighestSaleId` | store/views.py:169 | the latest sale is the one with the highest id, and there is none only when there are no sales |
| `Billing.ItemsFor` | store/views.py:182-190 | one sale line per cart line, in order, each a snapshot of that line's product, quantity, unit price and subtotal |
| `Billing.ApplyLinesFrame` | store/views.py:182-192 | the line loop changes only stock and sale lines, only appends lines, and fails only with a per-line failure |
| `Billing.ApplyLinesCompleted` | store/views.py:182-192 | a loop that completes appends exactly the lines' sale lines, and lowers each product's stock by the sum of the quantities of the lines naming it |
| `Billing.ApplyLinesAppend` | store/views.py:182-192 | the loop over `a + b` is the loop over `a` followed, unless it failed, by the loop over `b` |
| `Billing.ApplyLinesSucceedsIff` | store/views.py:182-192 | with existing products and non-negative quantities, the lines all go through exactly when no product is sold beyond its stock |
| `Billing.ApplyLinesValid` | store/views.py:182-192 | the lines written point to the sale and to existing products, and no stock becomes negative |
| `Billing.ResolveCustomerValid` | store/views.py:156-166 | the customer step changes neither sales, products nor lines, keeps the constraints, and refers only to an existing customer |
| `Billing.CreateSaleValid` | store/views.py:168-179 | inserting the sale row keeps the constraints and the new id is a sale |
| `Billing.BillPreservesValid` | store/views.py:150-194 | every request, successful or not, leaves all database constraints holding |
| `Billing.BillWalkIn` | store/views.py:156-158 | with an empty or missing name the customer table is unchanged and the sale has no customer |
| `Billing.BillReusesCustomer` | store/views.py:158-166 | an existing customer with the phone is reused unchanged, whatever name, email or address is sent |
| `Billing.BillCreatesCustomer` | store/views.py:158-166 | with no customer on that phone exactly one is added, with the given name and phone and `''` for an absent email or address; it stays even when a later step fails |
| `Billing.BillAmbiguousPhone` | store/views.py:159-166 | two or more customers on the phone make the request fail with nothing written |
| `Billing.BillFrame` | store/views.py:155-179 | a missing customer object changes nothing; the sale gets the next sale id and the resolved customer |
| `Billing.BillCreated` | store/views.py:168-194 | a successful sale carries the next invoice number, the cashier, and the caller's total and payment method verbatim; one line per cart line in order; stock lowered by the quantities sold; other products untouched |
| `Billing.BillUnknownProduct` | store/views.py:173-192 | an unknown product fails the request but leaves written the whole sale row (next id, next invoice number, cashier, customer, total and payment method as sent), the earlier lines and their stock decrements; nothing else changes |
| `Billing.BillNegativeQuantity` | store/views.py:182-189 | a negative quantity fails the request when its line is inserted; the whole sale row, the earlier lines and their stock decrements stay written, and nothing else changes |
| `Billing.BillOversold` | store/views.py:182-192 | a line selling more than the stock left after the earlier lines fails the request when the product is saved; its own sale line stays written, its decrement does not, and the whole sale row and the earlier writes stay |
| `Billing.BillMissingItems` | store/views.py:173-181 | a request without `items` fails after the sale row was written; the whole sale row stays, under the next id and invoice number, with no lines and no stock taken |
| `Billing.BillFirstInvoice` | store/views.py:169-170 | with no sale in the database the invoice number is `INV-0001` |
| `Billing.NextInvoiceIsFree` | store/views.py:169-170 | while invoice numbers do not exceed their sale ids, the next invoice number is not taken |
| `Billing.NewSaleFollowsIds` | store/views.py:169-179 | the inserted sale's invoice number does not exceed its id, so the property is kept |
| `Billing.BillInvoiceIsFresh` | store/views.py:169-179 | while invoice numbers do not exceed their sale ids, a computed number is never already taken, and the property is kept |
| `Billing.DeletionsKeepInvoicesFollowingIds` | store/models.py:34 | deletions keep every invoice number no greater than its sale's id |
| `Store.Store.LastSaleId` | store/views.py:169 | the scan returns the highest sale id, or none when there are no sales |
| `Store.Store.GetOrCreateCustomer` | store/views.py:156-166 | the in-place customer step does what `ResolveCustomer` says, and writes nothing on failure |
| `Store.Store.InsertSale` | store/views.py:168-179 | the in-place sale step does what `CreateSale` says, and writes nothing on failure |
| `Store.Store.CreateItems` | store/views.py:181-192 | the in-place line loop leaves the state and failure that `ApplyLines` gives |
| `Store.Store.Billing` | store/views.py:150-194 | the in-place request leaves the state and response that `Bill` gives, and keeps the database constraints |
| `JsText.TrimStart` | static/js/cart.js:84 | drops exactly the leading white space |
| `JsText.TrimEnd` | static/js/cart.js:84 | drops exactly the trailing white space |
| `JsText.Trim` | static/js/cart.js:129 | the result neither starts nor ends with white space |
| `JsText.TrimEmptyIffBlank` | static/js/cart.js:84 | a string trims to `''` exactly when it is all white space |
| `JsText.TrimIsInfix` | static/js/cart.js:129 | the trimmed text is a slice of the original with white-space margins on both sides |
| `JsText.Split` | static/js/cart.js:127 | split gives at least one piece and no piece holds the separator |
| `JsText.SplitJoin` | static/js/cart.js:127 | joining the pieces with the separator gives the original string back |
| `JsText.Head` | static/js/cart.js:130 | `substring(0, n)` gives the first n characters, or the whole string when it is shorter |
| `Cart.HeadIsPrefixTest` | static/js/cart.js:130 | comparing `substring(0, name.length + 1)` with `name=` tests whether the cookie starts with `name=` |
| `Cart.IndexOf` | static/js/cart.js:14 | `find` gives the first entry for the product, or none when no entry has it |
| `Cart.EffectiveQty` | static/js/cart.js:6 | an unreadable or zero quantity counts as 1; any other keeps its value |
| `Cart.SpliceIndex` | static/js/cart.js:67 | `splice(i, 1)` removes entry i when it exists, counts a negative i from the end, and removes nothing past the end |
| `Cart.TotalUpdate` | static/js/cart.js:60-64 | changing one entry changes the grand total by the difference of its subtotals |
| `Cart.TotalRemove` | static/js/cart.js:66-69 | removing an entry takes its subtotal off the grand total |
| `Cart.LinesSumToTotal` | static/js/cart.js:89-97 | the subtotals sent sum to the grand total |
| `Cart.ClientSaleTotalMatchesLines` | static/js/cart.js:89-99 | for a request built by the cart, the sale created has exactly the cart's lines, and its total equals the sum of their subtotals |
| `Cart.Cart.constructor` | static/js/cart.js:139-144 | on page load the cart is empty and shows a total of 0 |
| `Cart.Cart.UpdateCart` | static/js/cart.js:31-58 | the grand total shown is the sum over entries of unit price times quantity |
| `Cart.Added` | static/js/cart.js:8-25 | a quantity below 1 changes nothing; an existing entry only gains the quantity (length, order and other entries unchanged); a new product is appended at the end |
| `Cart.AddedKeepsIdsUnique` | static/js/cart.js:14-25 | adding never puts a product in the cart twice |
| `Cart.AddedTotal` | static/js/cart.js:14-25 | adding grows the grand total by the quantity times the unit price of the entry it lands in |
| `Cart.Cart.AddToCart` | static/js/cart.js:4-29 | the cart becomes `Added` of the old cart with the effective quantity, ids stay unique, and the shown total grows by quantity times the price charged (not at all for a negative quantity) |
| `Cart.Cart.UpdateCartItem` | static/js/cart.js:60-64 | a quantity of 0 or less, or an index with no entry, changes nothing; otherwise only that entry's quantity changes |
| `Cart.Cart.RemoveFromCart` | static/js/cart.js:66-69 | exactly the entry splice names is removed; the rest keep their order; the total drops by its subtotal |
| `Cart.Cart.GenerateInvoice` | static/js/cart.js:71-99 | nothing is sent for an empty cart, or for a non-blank name with a blank phone; otherwise one line per entry with subtotal = unit price × quantity, and the total sent is the sum of those subtotals |
| `Cart.GetCookie` | static/js/cart.js:124-137 | the decoded value of the first trimmed `;`-piece that starts with `name=`, or none when no piece does |

## Left out

- Authentication, sessions and the login and logout views: the cashier is an opaque user id passed to billing. The user table is not part of the model; deleting a user is modelled only by its effect on sales (`DeleteCashier`).
- The dashboard aggregates and chart data, the search views, the product and customer forms, invoice printing, reports rendering and the Excel export: read-only queries, templates and a spreadsheet library. Of these only the stock filters are modelled.
- Timestamps (`date`, `date_added`, `last_updated`): clock values with no bearing on the logic.
- JSON and `Decimal` parsing: the request arrives as already-parsed values, and a field is `None` when its key is absent. A present key holding JSON `null` or a value of the wrong type is not distinguished. Every cart line is taken to carry all four fields.
- Decimal precision: the two-place rounding and the digit limits of the decimal columns, the float arithmetic of the page, and `toFixed` formatting. Money is exact integer cents.
- Column length limits (`max_length`): only some database backends enforce them.
- Range of the positive-integer columns: the stock (`Product.quantity`, store/models.py:11) and the quantity sold (`SaleItem.quantity_sold`, store/models.py:52) are unbounded `int`s here. A database refuses values above 2147483647; the model has no failure for an overly large stock or quantity, so it does not capture that line failing after the sale row was written.
- The `null` value of the nullable text columns: billing stores `''` for an absent email or address, and this is modelled as a present empty string.
- Concurrency: two simultaneous requests can read the same highest sale id. Only single sequential calls are modelled. `BillInvoiceIsFresh` shows that sequential calls never collide; the `InvoiceConflict` failure remains for sales whose invoice number was set elsewhere (for instance by an administrator).
- Database ids: ids come from a counter that is never reused. Sale ids start at 1. A failed insert does not consume an id.
- Field defaults (stock 0 at store/models.py:11, payment method `cash` at store/models.py:44): they apply only where a field is not given. Billing always gives both, and the admin and forms are not part of this model, so neither default is modelled.
- Settings are not part of this model. Django's default autocommit is assumed: each statement commits on its own, with no per-request transaction.
- DOM effects in the cart: rendering rows, `alert`, resetting the quantity input, `fetch`, and the redirect after a response. The grand-total element is modelled as the number it shows. Pages without the cart table, where `updateCart` returns early, are not modelled.
- `Cart.Cart.UpdateCartItem`: the new quantity is taken as an integer. For text that is not an integer, `newQty <= 0` and `parseInt` can disagree; this is not modelled.
- `Cart.GetCookie`: `decodeURIComponent` is a parameter, and its exception on malformed escapes is not modelled.
- `static/js/main.js` (live search and a menu toggle), and the URL, admin and form declarations: configuration without logic of their own.

=== FILE: billing.dfy ===
/**
 * The billing view's POST path as a function from a database state and a
 * request to the new state and the response. Each step runs as its own
 * statement in autocommit mode: a failure part-way leaves the earlier
 * writes in place.
 */
module Billing {
  import opened Wrappers
  import opened Models
  import opened Database
  import opened Invoice

  /** The request's customer object; a field is None when its key is absent. */
  datatype CustomerInput = CustomerInput(
    name: Option<string>,
    phone: Option<string>,
    email: Option<string>,
    address: Option<string>)

  /** One cart line of the request. */
  datatype LineInput = LineInput(productId: Id, quantity: int, unitPrice: Cents, subtotal: Cents)

  /** The request body; a field is None when its key is absent (or, for the customer, null). */
  datatype Request = Request(
    customer: Option<CustomerInput>,
    totalAmount: Option<Cents>,
    paymentMethod: Option<string>,
    items: Option<seq<LineInput>>)

  /** Why a billing request fails: the exception the view lets escape. */
  datatype Failure =
    | NoCustomerObject                 // the customer entry is missing: `.get` on None
    | MissingPhone                     // a name is given but no phone key
    | MultipleCustomers                // more than one customer has that phone
    | MissingTotal                     // no total_amount key
    | MissingPaymentMethod             // no payment_method key
    | InvoiceConflict                  // the invoice number is already taken
    | MissingItems                     // no items key
    | ProductNotFound(productId: Id)   // no product with that id
    | NegativeQuantitySold(productId: Id)  // the line's quantity column refuses the value
    | NegativeStock(productId: Id)     // the product's stock column refuses the value

  datatype Outcome = Created(saleId: Id) | Failed(failure: Failure)

  /** Python truthiness of the optional name: present and non-empty. */
  predicate NameGiven(name: Option<string>) { name.Some? && name.value != "" }

  /** The customers whose phone equals `phone`. */
  function WithPhone(customers: map<Id, Customer>, phone: string): set<Id> {
    set c | c in customers && customers[c].phone == phone
  }

  /** The customer row that billing creates when no one has the phone. */
  function NewCustomer(input: CustomerInput): Customer
    requires input.name.Some? && input.phone.Some?
  {
    Customer(input.name.value, input.phone.value, Some(input.email.GetOr("")), Some(input.address.GetOr("")))
  }

  lemma SingletonElement(s: set<Id>, a: Id, b: Id)
    requires |s| == 1 && a in s && b in s
    ensures a == b
  {
    if a != b {
      assert {a, b} <= s;
      assert |{a, b}| == 2;
      SubsetSize({a, b}, s);
    }
  }

  lemma SubsetSize(a: set<Id>, b: set<Id>)
    requires a <= b
    ensures |a| <= |b|
  {
    assert b == a + (b - a);
  }

  /**
   * Find-or-create by phone, only when a name is given: the new state and
   * the sale's customer reference.
   */
  ghost function ResolveCustomer(db: Db, c: Option<CustomerInput>): Result<(Db, Option<Id>), Failure>
  {
    if c.None? then Err(NoCustomerObject)
    else if !NameGiven(c.value.name) then Ok((db, None))
    else if c.value.phone.None? then Err(MissingPhone)
    else
      var found := WithPhone(db.customers, c.value.phone.value);
      if |found| == 0 then
        var id := db.nextCustomerId;
        Ok((db.(customers := db.customers[id := NewCustomer(c.value)], nextCustomerId := id + 1), Some(id)))
      else if |found| == 1 then
        var id :| id in found;
        Ok((db, Some(id)))
      else Err(MultipleCustomers)
  }

  /** The highest sale id, if there is any sale. */
  ghost function HighestSaleId(sales: map<Id, Sale>): (r: Option<Id>)
    ensures r.None? <==> sales == map[]
    ensures r.Some? ==> r.value in sales && forall s :: s in sales ==> s <= r.value
  {
    if sales == map[] then None
    else
      MaxExists(sales.Keys);
      var m :| m in sales && forall s :: s in sales ==> s <= m;
      Some(m)
  }

  lemma {:induction false} MaxExists(ids: set<Id>)
    requires ids != {}
    ensures exists m :: m in ids && forall s :: s in ids ==> s <= m
    decreases |ids|
  {
    var x :| x in ids;
    if ids != {x} {
      MaxExists(ids - {x});
      var m :| m in ids - {x} && forall s :: s in ids - {x} ==> s <= m;
      var top := if x <= m then m else x;
      forall s | s in ids
        ensures s <= top
      {
        if s != x {
          assert s in ids - {x};
        }
      }
    } else {
      assert forall s :: s in ids ==> s <= x;
    }
  }

  /** The number the next invoice carries: the highest sale id plus one, or 1. */
  ghost function NextInvoiceSeq(sales: map<Id, Sale>): nat
  {
    SeqAfter(HighestSaleId(sales))
  }

  /** The sequence number following the last sale's id, or 1 when there is none. */
  function SeqAfter(last: Option<Id>): nat {
    match last
    case None => 1
    case Some(m) => m + 1
  }

  predicate InvoiceTaken(sales: map<Id, Sale>, invoiceNo: string) {
    exists s :: s in sales && sales[s].invoiceNo == invoiceNo
  }

  /** Inserts the sale row: the new state and the new sale's id. */
  ghost function CreateSale(db: Db, req: Request, cashier: Id, customer: Option<Id>): Result<(Db, Id), Failure>
  {
    if req.totalAmount.None? then Err(MissingTotal)
    else if req.paymentMethod.None? then Err(MissingPaymentMethod)
    else
      var invoiceNo := InvoiceNo(NextInvoiceSeq(db.sales));
      if InvoiceTaken(db.sales, invoiceNo) then Err(InvoiceConflict)
      else
        var id := db.nextSaleId;
        var sale := Sale(invoiceNo, cashier, customer, req.totalAmount.value, req.paymentMethod.value);
        Ok((db.(sales := db.sales[id := sale], nextSaleId := id + 1), id))
  }

  /** The sale line snapshotting one cart line. */
  function ItemOf(sale: Id, line: LineInput): SaleItem {
    SaleItem(sale, line.productId, line.quantity, line.unitPrice, line.subtotal)
  }

  /** The sale lines for a run of cart lines, one per line and in order. */
  function ItemsFor(sale: Id, lines: seq<LineInput>): (r: seq<SaleItem>)
    ensures |r| == |lines|
    ensures forall k :: 0 <= k < |lines| ==> r[k] == ItemOf(sale, lines[k])
  {
    if lines == [] then [] else [ItemOf(sale, lines[0])] + ItemsFor(sale, lines[1..])
  }

  /** The total quantity that the lines naming `product` sell. */
  function SumQty(lines: seq<LineInput>, product: Id): int {
    if lines == [] then 0
    else (if lines[0].productId == product then lines[0].quantity else 0) + SumQty(lines[1..], product)
  }

  /** The state after one cart line went through: its sale line written, its product's stock lowered. */
  function AfterLine(db: Db, sale: Id, line: LineInput): Db
    requires line.productId in db.products
  {
    var product := db.products[line.productId];
    db.(items := db.items + [ItemOf(sale, line)],
        products := db.products[line.productId := product.(quantity := product.quantity - line.quantity)])
  }

  /**
   * The loop over the cart lines: per line, look the product up, insert the
   * sale line, then store the decremented stock. The error, if any, stops
   * the loop and keeps what was written before it.
   */
  function ApplyLines(db: Db, sale: Id, lines: seq<LineInput>): (Db, Option<Failure>)
    decreases |lines|
  {
    if lines == [] then (db, None)
    else
      var line := lines[0];
      if line.productId !in db.products then (db, Some(ProductNotFound(line.productId)))
      else if line.quantity < 0 then (db, Some(NegativeQuantitySold(line.productId)))
      else if db.products[line.productId].quantity - line.quantity < 0 then
        (db.(items := db.items + [ItemOf(sale, line)]), Some(NegativeStock(line.productId)))
      else ApplyLines(AfterLine(db, sale, line), sale, lines[1..])
  }

  /** The whole POST path: the state after the request, and the response. */
  ghost function Bill(db: Db, req: Request, cashier: Id): (Db, Outcome)
  {
    match ResolveCustomer(db, req.customer)
    case Err(e) => (db, Failed(e))
    case Ok((db1, customer)) =>
      match CreateSale(db1, req, cashier, customer)
      case Err(e) => (db1, Failed(e))
      case Ok((db2, id)) =>
        if req.items.None? then (db2, Failed(MissingItems))
        else
          var (db3, err) := ApplyLines(db2, id, req.items.value);
          (db3, if err.Some? then Failed(err.value) else Created(id))
  }

  // ---------------------------------------------------------------------
  // The cart-line loop

  /** What no cart line touches: customers, sales, counters and all product fields but the stock. */
  predicate LinesFrame(before: Db, after: Db) {
    && after.customers == before.customers
    && after.sales == before.sales
    && after.nextCustomerId == before.nextCustomerId
    && after.nextSaleId == before.nextSaleId
    && after.products.Keys == before.products.Keys
    && (forall p :: p in before.products ==>
          after.products[p] == before.products[p].(quantity := after.products[p].quantity))
    && |after.items| >= |before.items| && after.items[..|before.items|] == before.items
  }

  /** The loop only ever fails with one of the three per-line failures. */
  predicate LineFailure(err: Option<Failure>) {
    err.None? || err.value.ProductNotFound? || err.value.NegativeQuantitySold? || err.value.NegativeStock?
  }

  lemma {:induction false} ApplyLinesFrame(db: Db, sale: Id, lines: seq<LineInput>)
    ensures LinesFrame(db, ApplyLines(db, sale, lines).0)
    ensures LineFailure(ApplyLines(db, sale, lines).1)
    decreases |lines|
  {
    if lines != [] {
      var line := lines[0];
      if line.productId in db.products && line.quantity >= 0 {
        var withItem := db.(items := db.items + [ItemOf(sale, line)]);
        assert withItem.items[..|db.items|] == db.items;
        if db.products[line.productId].quantity - line.quantity >= 0 {
          var next := AfterLine(db, sale, line);
          assert next.items == withItem.items;
          ApplyLinesFrame(next, sale, lines[1..]);
          var fin := ApplyLines(next, sale, lines[1..]).0;
          assert fin.items[..|db.items|] == fin.items[..|next.items|][..|db.items|];
        }
      }
    }
  }

  /**
   * A loop that ran to the end added exactly one sale line per cart line, in
   * order, and took from each product the sum of the quantities of the
   * lines naming it; products no line names keep their stock.
   */
  lemma ApplyLinesCompleted(db: Db, sale: Id, lines: seq<LineInput>)
    requires ApplyLines(db, sale, lines).1.None?
    ensures var after := ApplyLines(db, sale, lines).0;
      && after.items == db.items + ItemsFor(sale, lines)
      && after.products.Keys == db.products.Keys
      && forall p :: p in db.products ==>
           after.products[p] == db.products[p].(quantity := db.products[p].quantity - SumQty(lines, p))
  {
    CompletedItems(db, sale, lines);
    CompletedStock(db, sale, lines);
  }

  /** The first line of a loop that completed went through, and the rest completed after it. */
  lemma CompletedStep(db: Db, sale: Id, lines: seq<LineInput>)
    requires lines != [] && ApplyLines(db, sale, lines).1.None?
    ensures lines[0].productId in db.products && lines[0].quantity >= 0
    ensures ApplyLines(db, sale, lines) == ApplyLines(AfterLine(db, sale, lines[0]), sale, lines[1..])
    ensures AfterLine(db, sale, lines[0]).items == db.items + [ItemOf(sale, lines[0])]
  {
  }

  lemma ItemsForStep(sale: Id, lines: seq<LineInput>, items: seq<SaleItem>)
    requires lines != []
    ensures items + ItemsFor(sale, lines) == (items + [ItemOf(sale, lines[0])]) + ItemsFor(sale, lines[1..])
  {
    assert ItemsFor(sale, lines) == [ItemOf(sale, lines[0])] + ItemsFor(sale, lines[1..]);
  }

  lemma {:induction false} CompletedItems(db: Db, sale: Id, lines: seq<LineInput>)
    requires ApplyLines(db, sale, lines).1.None?
    ensures ApplyLines(db, sale, lines).0.items == db.items + ItemsFor(sale, lines)
    decreases |lines|
  {
    if lines != [] {
      CompletedStep(db, sale, lines);
      CompletedItems(AfterLine(db, sale, lines[0]), sale, lines[1..]);
      ItemsForStep(sale, lines, db.items);
    }
  }

  lemma {:induction false} CompletedStock(db: Db, sale: Id, lines: seq<LineInput>)
    requires ApplyLines(db, sale, lines).1.None?
    ensures var after := ApplyLines(db, sale, lines).0;
      && after.products.Keys == db.products.Keys
      && forall p :: p in db.products ==>
           after.products[p] == db.products[p].(quantity := db.products[p].quantity - SumQty(lines, p))
    decreases |lines|
  {
    if lines != [] {
      CompletedStep(db, sale, lines);
      var line := lines[0];
      var next := AfterLine(db, sale, line);
      CompletedStock(next, sale, lines[1..]);
      var after := ApplyLines(next, sale, lines[1..]).0;
      forall p | p in db.products
        ensures after.products[p] == db.products[p].(quantity := db.products[p].quantity - SumQty(lines, p))
      {
        assert SumQty(lines, p) == (if line.productId == p then line.quantity else 0) + SumQty(lines[1..], p);
      }
    }
  }

  /** Running the loop over `a + b` is running it over `a`, then, if that did not fail, over `b`. */
  lemma {:induction false} ApplyLinesAppend(db: Db, sale: Id, a: seq<LineInput>, b: seq<LineInput>)
    ensures ApplyLines(db, sale, a + b) ==
      var (mid, err) := ApplyLines(db, sale, a);
      if err.Some? then (mid, err) else ApplyLines(mid, sale, b)
    decreases |a|
  {
    if a == [] {
      assert a + b == b;
    } else {
      assert (a + b)[0] == a[0];
      assert (a + b)[1..] == a[1..] + b;
      var line := a[0];
      if line.productId in db.products && line.quantity >= 0
         && db.products[line.productId].quantity - line.quantity >= 0 {
        ApplyLinesAppend(AfterLine(db, sale, line), sale, a[1..], b);
      }
    }
  }

  /**
   * The view never compares the stock with the quantity sold: when every
   * line names an existing product with a non-negative quantity, the loop
   * runs to the end exactly when no product is sold beyond its stock, the
   * refusal coming from the stock column's constraint.
   */
  lemma {:induction false} ApplyLinesSucceedsIff(db: Db, sale: Id, lines: seq<LineInput>)
    requires forall p :: p in db.products ==> db.products[p].Valid()
    requires forall k :: 0 <= k < |lines| ==> lines[k].productId in db.products && lines[k].quantity >= 0
    ensures ApplyLines(db, sale, lines).1.None? <==>
      forall p :: p in db.products ==> SumQty(lines, p) <= db.products[p].quantity
    decreases |lines|
  {
    if lines != [] {
      var line := lines[0];
      var rest := lines[1..];
      assert line.productId in db.products && line.quantity >= 0;
      SumQtyNonNegative(rest, line.productId);
      if db.products[line.productId].quantity - line.quantity < 0 {
        assert SumQty(lines, line.productId) > db.products[line.productId].quantity;
      } else {
        var next := AfterLine(db, sale, line);
        assert ApplyLines(db, sale, lines) == ApplyLines(next, sale, rest);
        assert forall k :: 0 <= k < |rest| ==> rest[k] == lines[k + 1];
        ApplyLinesSucceedsIff(next, sale, rest);
        forall p | p in db.products
          ensures (SumQty(rest, p) <= next.products[p].quantity) == (SumQty(lines, p) <= db.products[p].quantity)
        {
        }
      }
    }
  }

  lemma {:induction false} SumQtyNonNegative(lines: seq<LineInput>, p: Id)
    requires forall k :: 0 <= k < |lines| ==> lines[k].quantity >= 0
    ensures SumQty(lines, p) >= 0
    decreases |lines|
  {
    if lines != [] {
      SumQtyNonNegative(lines[1..], p);
    }
  }

  /** Sale lines written by the loop are valid rows pointing at the sale and at existing products. */
  lemma {:induction false} ApplyLinesValid(db: Db, sale: Id, lines: seq<LineInput>)
    requires db.Valid() && sale in db.sales
    ensures ApplyLines(db, sale, lines).0.Valid()
    decreases |lines|
  {
    if lines != [] {
      var line := lines[0];
      if line.productId in db.products && line.quantity >= 0 {
        var withItem := db.(items := db.items + [ItemOf(sale, line)]);
        assert withItem.Valid();
        if db.products[line.productId].quantity - line.quantity >= 0 {
          var next := AfterLine(db, sale, line);
          assert next.Valid() by {
            assert SkusUnique(next.products) by {
              forall a, b | a in next.products && b in next.products && a != b
                ensures next.products[a].sku != next.products[b].sku
              {
                assert next.products[a].sku == db.products[a].sku;
                assert next.products[b].sku == db.products[b].sku;
              }
            }
          }
          ApplyLinesValid(next, sale, lines[1..]);
        }
      }
    }
  }

  // ---------------------------------------------------------------------
  // Properties of the whole request

  /** The customer step writes at most a customer row, and keeps the constraints. */
  lemma ResolveCustomerValid(db: Db, c: Option<CustomerInput>)
    requires ResolveCustomer(db, c).Ok?
    ensures var (db1, customer) := ResolveCustomer(db, c).value;
      && db1.sales == db.sales && db1.products == db.products && db1.items == db.items
      && db1.nextSaleId == db.nextSaleId
      && (db.Valid() ==> db1.Valid() && (customer.Some? ==> customer.value in db1.customers))
  {
    var (db1, customer) := ResolveCustomer(db, c).value;
    if db1 != db {
      assert db1.customers == db.customers[db.nextCustomerId := NewCustomer(c.value)];
    }
  }

  /** The sale step inserts exactly one sale row, under the next id and a free invoice number. */
  lemma CreateSaleShape(db: Db, req: Request, cashier: Id, customer: Option<Id>)
    requires CreateSale(db, req, cashier, customer).Ok?
    ensures var (db2, id) := CreateSale(db, req, cashier, customer).value;
      var invoiceNo := InvoiceNo(NextInvoiceSeq(db.sales));
      && req.totalAmount.Some? && req.paymentMethod.Some?
      && id == db.nextSaleId
      && !InvoiceTaken(db.sales, invoiceNo)
      && db2 == db.(sales := db.sales[id := Sale(invoiceNo, cashier, customer, req.totalAmount.value, req.paymentMethod.value)],
                    nextSaleId := id + 1)
  {
  }

  lemma CreateSaleValid(db: Db, req: Request, cashier: Id, customer: Option<Id>)
    requires db.Valid() && (customer.Some? ==> customer.value in db.customers)
    requires CreateSale(db, req, cashier, customer).Ok?
    ensures CreateSale(db, req, cashier, customer).value.0.Valid()
    ensures CreateSale(db, req, cashier, customer).value.1 in CreateSale(db, req, cashier, customer).value.0.sales
  {
    CreateSaleShape(db, req, cashier, customer);
  }

  /** Billing keeps every database constraint, whether it succeeds or fails. */
  lemma BillPreservesValid(db: Db, req: Request, cashier: Id)
    requires db.Valid()
    ensures Bill(db, req, cashier).0.Valid()
  {
    match ResolveCustomer(db, req.customer)
    case Err(_) =>
    case Ok((db1, customer)) =>
      ResolveCustomerValid(db, req.customer);
      match CreateSale(db1, req, cashier, customer)
      case Err(_) =>
      case Ok((db2, id)) =>
        CreateSaleValid(db1, req, cashier, customer);
        if req.items.Some? {
          ApplyLinesValid(db2, id, req.items.value);
        }
  }

  /** No customer name: a walk-in sale; the customer table is left alone. */
  lemma BillWalkIn(db: Db, req: Request, cashier: Id)
    requires req.customer.Some? && !NameGiven(req.customer.value.name)
    ensures var (after, out) := Bill(db, req, cashier);
      && after.customers == db.customers
      && after.nextCustomerId == db.nextCustomerId
      && (out.Created? ==> out.saleId in after.sales && after.sales[out.saleId].customer == None)
  {
    BillFrame(db, req, cashier);
  }

  /**
   * A customer with the given phone exists: that row is reused untouched,
   * whatever name, email or address the request carries.
   */
  lemma BillReusesCustomer(db: Db, req: Request, cashier: Id, existing: Id)
    requires req.customer.Some? && NameGiven(req.customer.value.name) && req.customer.value.phone.Some?
    requires WithPhone(db.customers, req.customer.value.phone.value) == {existing}
    ensures var (after, out) := Bill(db, req, cashier);
      && after.customers == db.customers
      && after.nextCustomerId == db.nextCustomerId
      && (out.Created? ==> out.saleId in after.sales && after.sales[out.saleId].customer == Some(existing))
  {
    var found := WithPhone(db.customers, req.customer.value.phone.value);
    var r := ResolveCustomer(db, req.customer);
    assert r.Ok? && r.value.0 == db;
    assert r.value.1.Some? && r.value.1.value in found;
    BillFrame(db, req, cashier);
  }

  /**
   * No customer has the given phone: exactly one customer is added, with the
   * given name and phone and an empty email and address when those keys are
   * absent, and the sale points to it. This holds even when a later step fails.
   */
  lemma BillCreatesCustomer(db: Db, req: Request, cashier: Id)
    requires req.customer.Some? && NameGiven(req.customer.value.name) && req.customer.value.phone.Some?
    requires WithPhone(db.customers, req.customer.value.phone.value) == {}
    ensures var (after, out) := Bill(db, req, cashier);
      var c := req.customer.value;
      && after.customers == db.customers[db.nextCustomerId := Customer(
           c.name.value, c.phone.value, Some(c.email.GetOr("")), Some(c.address.GetOr("")))]
      && after.nextCustomerId == db.nextCustomerId + 1
      && (out.Created? ==> out.saleId in after.sales && after.sales[out.saleId].customer == Some(db.nextCustomerId))
  {
    BillFrame(db, req, cashier);
  }

  /** Two or more customers share the phone: the lookup fails and nothing is written. */
  lemma BillAmbiguousPhone(db: Db, req: Request, cashier: Id)
    requires req.customer.Some? && NameGiven(req.customer.value.name) && req.customer.value.phone.Some?
    requires |WithPhone(db.customers, req.customer.value.phone.value)| >= 2
    ensures Bill(db, req, cashier) == (db, Failed(MultipleCustomers))
  {
  }

  /** What every run of the request leaves as it was, and where the new sale and its lines go. */
  lemma BillFrame(db: Db, req: Request, cashier: Id)
    ensures var (after, out) := Bill(db, req, cashier);
      && (req.customer.None? ==> after == db)
      && (ResolveCustomer(db, req.customer).Ok? ==>
            after.customers == ResolveCustomer(db, req.customer).value.0.customers
            && after.nextCustomerId == ResolveCustomer(db, req.customer).value.0.nextCustomerId)
      && (out.Created? ==>
            && ResolveCustomer(db, req.customer).Ok?
            && out.saleId == db.nextSaleId
            && out.saleId in after.sales
            && after.sales[out.saleId].customer == ResolveCustomer(db, req.customer).value.1)
  {
    match ResolveCustomer(db, req.customer)
    case Err(_) =>
    case Ok((db1, customer)) =>
      match CreateSale(db1, req, cashier, customer)
      case Err(_) =>
      case Ok((db2, id)) =>
        if req.items.Some? {
          ApplyLinesFrame(db2, id, req.items.value);
        }
  }

  /**
   * A successful request stores the caller's total and payment method as
   * given (neither is recomputed nor checked against the declared choices),
   * under the next invoice number, writes one sale line per cart line in
   * order, and takes from each product the quantities its lines sell;
   * products no line names keep their stock.
   */
  lemma BillCreated(db: Db, req: Request, cashier: Id)
    requires Bill(db, req, cashier).1.Created?
    ensures var (after, out) := Bill(db, req, cashier);
      var id := out.saleId;
      var lines := req.items.value;
      && req.totalAmount.Some? && req.paymentMethod.Some? && req.items.Some?
      && id == db.nextSaleId && after.nextSaleId == id + 1
      && id in after.sales && after.sales == db.sales[id := after.sales[id]]
      && after.sales[id].invoiceNo == InvoiceNo(NextInvoiceSeq(db.sales))
      && after.sales[id].cashier == cashier
      && after.sales[id].totalAmount == req.totalAmount.value
      && after.sales[id].paymentMethod == req.paymentMethod.value
      && after.items == db.items + ItemsFor(id, lines)
      && after.products.Keys == db.products.Keys
      && (forall p :: p in db.products ==>
            after.products[p] == db.products[p].(quantity := db.products[p].quantity - SumQty(lines, p)))
      && (forall p :: p in db.products && (forall k :: 0 <= k < |lines| ==> lines[k].productId != p) ==>
            after.products[p] == db.products[p])
  {
    var (db1, customer) := ResolveCustomer(db, req.customer).value;
    ResolveCustomerValid(db, req.customer);
    var (db2, id) := CreateSale(db1, req, cashier, customer).value;
    CreateSaleShape(db1, req, cashier, customer);
    var lines := req.items.value;
    assert Bill(db, req, cashier) == (ApplyLines(db2, id, lines).0, Created(id));
    ApplyLinesCompleted(db2, id, lines);
    ApplyLinesFrame(db2, id, lines);
    forall p | p in db.products && (forall k :: 0 <= k < |lines| ==> lines[k].productId != p)
      ensures SumQty(lines, p) == 0
    {
      SumQtyUnnamed(lines, p);
    }
  }

  lemma {:induction false} SumQtyUnnamed(lines: seq<LineInput>, p: Id)
    requires forall k :: 0 <= k < |lines| ==> lines[k].productId != p
    ensures SumQty(lines, p) == 0
    decreases |lines|
  {
    if lines != [] {
      SumQtyUnnamed(lines[1..], p);
    }
  }

  /**
   * The sale row a request writes, and nothing else about sales, customers
   * and counters beyond what the customer step did: the state `result`
   * holds exactly the old sales plus the new sale, under the next id, with
   * the next invoice number, the cashier, the resolved customer and the
   * total and payment method as sent.
   */
  ghost predicate SaleWritten(db: Db, req: Request, cashier: Id, result: Db)
    requires ResolveCustomer(db, req.customer).Ok?
  {
    var (db1, customer) := ResolveCustomer(db, req.customer).value;
    && req.totalAmount.Some? && req.paymentMethod.Some?
    && result.sales == db.sales[db.nextSaleId := Sale(InvoiceNo(NextInvoiceSeq(db.sales)), cashier, customer,
                                                      req.totalAmount.value, req.paymentMethod.value)]
    && result.nextSaleId == db.nextSaleId + 1
    && result.customers == db1.customers
    && result.nextCustomerId == db1.nextCustomerId
  }

  /** Every product of `db` is kept, with only its stock lowered by what `lines` sell of it. */
  ghost predicate StockTaken(db: Db, result: Db, lines: seq<LineInput>) {
    && result.products.Keys == db.products.Keys
    && forall p :: p in db.products ==>
         result.products[p] == db.products[p].(quantity := db.products[p].quantity - SumQty(lines, p))
  }

  /**
   * The state a request reaches when the customer and sale steps went
   * through and the lines `before` all did: the sale written, the lines of
   * `before` written and their stock taken. What the request then does is
   * the loop over the remaining lines from that state.
   */
  lemma BillReachesLine(db: Db, req: Request, cashier: Id, before: seq<LineInput>, rest: seq<LineInput>)
    returns (mid: Db)
    requires ResolveCustomer(db, req.customer).Ok?
    requires CreateSale(ResolveCustomer(db, req.customer).value.0, req, cashier,
                        ResolveCustomer(db, req.customer).value.1).Ok?
    requires req.items == Some(before + rest)
    requires ApplyLines(CreateSale(ResolveCustomer(db, req.customer).value.0, req, cashier,
                                   ResolveCustomer(db, req.customer).value.1).value.0,
                        db.nextSaleId, before).1.None?
    ensures var id := db.nextSaleId;
      && SaleWritten(db, req, cashier, mid)
      && mid.items == db.items + ItemsFor(id, before)
      && StockTaken(db, mid, before)
      && Bill(db, req, cashier) ==
           var (result, err) := ApplyLines(mid, id, rest);
           (result, if err.Some? then Failed(err.value) else Created(id))
  {
    var (db1, customer) := ResolveCustomer(db, req.customer).value;
    ResolveCustomerValid(db, req.customer);
    var (db2, id) := CreateSale(db1, req, cashier, customer).value;
    CreateSaleShape(db1, req, cashier, customer);
    ApplyLinesAppend(db2, id, before, rest);
    mid := ApplyLines(db2, id, before).0;
    ApplyLinesCompleted(db2, id, before);
    ApplyLinesFrame(db2, id, before);
  }

  /**
   * A line naming an unknown product fails the request, but the sale, the
   * lines before it and their stock decrements stay written.
   */
  lemma BillUnknownProduct(db: Db, req: Request, cashier: Id, before: seq<LineInput>, bad: LineInput, after: seq<LineInput>)
    requires ResolveCustomer(db, req.customer).Ok?
    requires CreateSale(ResolveCustomer(db, req.customer).value.0, req, cashier,
                        ResolveCustomer(db, req.customer).value.1).Ok?
    requires req.items == Some(before + [bad] + after)
    requires bad.productId !in db.products
    requires ApplyLines(CreateSale(ResolveCustomer(db, req.customer).value.0, req, cashier,
                                   ResolveCustomer(db, req.customer).value.1).value.0,
                        db.nextSaleId, before).1.None?
    ensures var (result, out) := Bill(db, req, cashier);
      var id := db.nextSaleId;
      && out == Failed(ProductNotFound(bad.productId))
      && SaleWritten(db, req, cashier, result)
      && result.items == db.items + ItemsFor(id, before)
      && StockTaken(db, result, before)
  {
    assert before + [bad] + after == before + ([bad] + after);
    var mid := BillReachesLine(db, req, cashier, before, [bad] + after);
  }

  /**
   * A line with a negative quantity is refused by the quantity-sold column:
   * the request fails, and the sale, the lines before it and their stock
   * decrements stay written.
   */
  lemma BillNegativeQuantity(db: Db, req: Request, cashier: Id, before: seq<LineInput>, bad: LineInput, after: seq<LineInput>)
    requires ResolveCustomer(db, req.customer).Ok?
    requires CreateSale(ResolveCustomer(db, req.customer).value.0, req, cashier,
                        ResolveCustomer(db, req.customer).value.1).Ok?
    requires req.items == Some(before + [bad] + after)
    requires bad.productId in db.products && bad.quantity < 0
    requires ApplyLines(CreateSale(ResolveCustomer(db, req.customer).value.0, req, cashier,
                                   ResolveCustomer(db, req.customer).value.1).value.0,
                        db.nextSaleId, before).1.None?
    ensures var (result, out) := Bill(db, req, cashier);
      var id := db.nextSaleId;
      && out == Failed(NegativeQuantitySold(bad.productId))
      && SaleWritten(db, req, cashier, result)
      && result.items == db.items + ItemsFor(id, before)
      && StockTaken(db, result, before)
  {
    assert before + [bad] + after == before + ([bad] + after);
    var mid := BillReachesLine(db, req, cashier, before, [bad] + after);
  }

  /**
   * A line that would take its product's stock below zero (counting what
   * the earlier lines took) is refused when the product is saved: the
   * request fails, its sale line is already written, and its stock
   * decrement is not.
   */
  lemma BillOversold(db: Db, req: Request, cashier: Id, before: seq<LineInput>, bad: LineInput, after: seq<LineInput>)
    requires ResolveCustomer(db, req.customer).Ok?
    requires CreateSale(ResolveCustomer(db, req.customer).value.0, req, cashier,
                        ResolveCustomer(db, req.customer).value.1).Ok?
    requires req.items == Some(before + [bad] + after)
    requires bad.productId in db.products && bad.quantity >= 0
    requires db.products[bad.productId].quantity - SumQty(before, bad.productId) < bad.quantity
    requires ApplyLines(CreateSale(ResolveCustomer(db, req.customer).value.0, req, cashier,
                                   ResolveCustomer(db, req.customer).value.1).value.0,
                        db.nextSaleId, before).1.None?
    ensures var (result, out) := Bill(db, req, cashier);
      var id := db.nextSaleId;
      && out == Failed(NegativeStock(bad.productId))
      && SaleWritten(db, req, cashier, result)
      && result.items == db.items + ItemsFor(id, before) + [ItemOf(id, bad)]
      && StockTaken(db, result, before)
  {
    assert before + [bad] + after == before + ([bad] + after);
    var mid := BillReachesLine(db, req, cashier, before, [bad] + after);
  }

  /**
   * A request without an `items` key fails after the sale row was written:
   * the sale stays, with no lines and no stock taken.
   */
  lemma BillMissingItems(db: Db, req: Request, cashier: Id)
    requires ResolveCustomer(db, req.customer).Ok?
    requires CreateSale(ResolveCustomer(db, req.customer).value.0, req, cashier,
                        ResolveCustomer(db, req.customer).value.1).Ok?
    requires req.items.None?
    ensures var (result, out) := Bill(db, req, cashier);
      && out == Failed(MissingItems)
      && SaleWritten(db, req, cashier, result)
      && result.items == db.items
      && result.products == db.products
  {
    var (db1, customer) := ResolveCustomer(db, req.customer).value;
    ResolveCustomerValid(db, req.customer);
    CreateSaleShape(db1, req, cashier, customer);
  }

  /** With no sale in the database the invoice number is INV-0001. */
  lemma BillFirstInvoice(db: Db, req: Request, cashier: Id)
    requires db.sales == map[]
    requires Bill(db, req, cashier).1.Created?
    ensures var (after, out) := Bill(db, req, cashier);
      out.saleId in after.sales && after.sales[out.saleId].invoiceNo == "INV-0001"
  {
    BillCreated(db, req, cashier);
    FirstInvoiceNo();
  }

  /**
   * Every invoice number reads back as a number no greater than its sale's
   * id: true of the numbers billing assigns, and kept by the deletions.
   */
  ghost predicate InvoicesFollowIds(sales: map<Id, Sale>) {
    forall s :: s in sales ==>
      ParseInvoiceNo(sales[s].invoiceNo).Some? && ParseInvoiceNo(sales[s].invoiceNo).value <= s
  }

  /**
   * When the invoice numbers follow the ids, as billing leaves them, the
   * number a request computes is never taken, and the new sale keeps the
   * property: calls one after another never collide.
   */
  lemma BillInvoiceIsFresh(db: Db, req: Request, cashier: Id)
    requires db.Valid() && InvoicesFollowIds(db.sales)
    ensures Bill(db, req, cashier).1 != Failed(InvoiceConflict)
    ensures InvoicesFollowIds(Bill(db, req, cashier).0.sales)
  {
    NextInvoiceIsFree(db.sales);
    match ResolveCustomer(db, req.customer)
    case Err(_) =>
    case Ok((db1, customer)) =>
      ResolveCustomerValid(db, req.customer);
      match CreateSale(db1, req, cashier, customer)
      case Err(e) =>
        assert e != InvoiceConflict;
      case Ok((db2, id)) =>
        NewSaleFollowsIds(db1, req, cashier, customer);
        if req.items.Some? {
          ApplyLinesFrame(db2, id, req.items.value);
        }
  }

  /** With invoice numbers following ids, the next number is not yet taken. */
  lemma NextInvoiceIsFree(sales: map<Id, Sale>)
    requires InvoicesFollowIds(sales)
    ensures !InvoiceTaken(sales, InvoiceNo(NextInvoiceSeq(sales)))
  {
    var n := NextInvoiceSeq(sales);
    InvoiceRoundTrip(n);
    forall s | s in sales
      ensures sales[s].invoiceNo != InvoiceNo(n)
    {
      assert s < n;
    }
  }

  /** The sale row billing inserts keeps invoice numbers following ids. */
  lemma NewSaleFollowsIds(db: Db, req: Request, cashier: Id, customer: Option<Id>)
    requires 1 <= db.nextSaleId && forall s :: s in db.sales ==> s < db.nextSaleId
    requires InvoicesFollowIds(db.sales)
    requires CreateSale(db, req, cashier, customer).Ok?
    ensures InvoicesFollowIds(CreateSale(db, req, cashier, customer).value.0.sales)
  {
    var n := NextInvoiceSeq(db.sales);
    assert n <= db.nextSaleId by {
      match HighestSaleId(db.sales)
      case None =>
      case Some(m) =>
        assert m in db.sales;
    }
    CreateSaleShape(db, req, cashier, customer);
    InvoiceRoundTrip(n);
    var (db2, id) := CreateSale(db, req, cashier, customer).value;
    forall s | s in db2.sales
      ensures ParseInvoiceNo(db2.sales[s].invoiceNo).Some? && ParseInvoiceNo(db2.sales[s].invoiceNo).value <= s
    {
      if s != id {
        assert db2.sales[s] == db.sales[s];
      }
    }
  }

  /** Deleting sales, customers, products or cashiers keeps invoice numbers following ids. */
  lemma DeletionsKeepInvoicesFollowingIds(db: Db, id: Id)
    requires InvoicesFollowIds(db.sales)
    ensures InvoicesFollowIds(DeleteSale(db, id).sales)
    ensures InvoicesFollowIds(DeleteCustomer(db, id).sales)
    ensures InvoicesFollowIds(DeleteProduct(db, id).sales)
    ensures InvoicesFollowIds(DeleteCashier(db, id).sales)
  {
    var r := DeleteCustomer(db, id);
    forall s | s in r.sales
      ensures r.sales[s].invoiceNo == db.sales[s].invoiceNo
    {
    }
  }
}

=== FILE: cart.dfy ===
/**
 * The billing page's client-side cart: a list of entries changed in place
 * by the page's handlers, the grand total shown under it, the checks made
 * before a sale is submitted, the request body then sent, and the cookie
 * lookup that supplies the CSRF token. Prices are in cents.
 */
module Cart {
  import opened Wrappers
  import opened Models
  import opened Database
  import opened Billing
  import opened JsText

  datatype CartEntry = CartEntry(productId: Id, productName: string, unitPrice: Cents, quantity: int)

  function Subtotal(e: CartEntry): Cents {
    e.unitPrice * e.quantity
  }

  /** The grand total: the sum of the entries' subtotals, accumulated from the first. */
  function Total(entries: seq<CartEntry>): Cents
    decreases |entries|
  {
    if entries == [] then 0 else Total(entries[..|entries| - 1]) + Subtotal(entries[|entries| - 1])
  }

  /** No product appears twice in the cart. */
  predicate IdsUnique(entries: seq<CartEntry>) {
    forall i, j :: 0 <= i < j < |entries| ==> entries[i].productId != entries[j].productId
  }

  /** `cart.find`: the position of the first entry for the product, if any. */
  function IndexOf(entries: seq<CartEntry>, productId: Id): (r: Option<nat>)
    ensures r.Some? ==> r.value < |entries| && entries[r.value].productId == productId
    ensures r.Some? ==> forall j :: 0 <= j < r.value ==> entries[j].productId != productId
    ensures r.None? ==> forall j :: 0 <= j < |entries| ==> entries[j].productId != productId
    decreases |entries|
  {
    if entries == [] then None
    else if entries[0].productId == productId then Some(0)
    else match IndexOf(entries[1..], productId)
      case None => None
      case Some(k) => Some(k + 1)
  }

  /** `parseInt(value) || 1`: an unreadable (None) or zero quantity counts as 1. */
  function EffectiveQty(input: Option<int>): (q: int)
    ensures q != 0
    ensures input.None? || input.value == 0 ==> q == 1
    ensures input.Some? && input.value != 0 ==> q == input.value
  {
    if input.None? || input.value == 0 then 1 else input.value
  }

  /** The entry `splice(index, 1)` removes: a negative index counts from the end. */
  function SpliceIndex(index: int, length: nat): (r: Option<nat>)
    ensures r.Some? ==> r.value < length
    ensures 0 <= index < length ==> r == Some(index)
    ensures index >= length ==> r.None?
    ensures index < 0 && length as int + index >= 0 ==> r == Some((length as int + index) as nat)
    ensures length as int + index < 0 ==> r == (if length > 0 then Some(0) else None)
  {
    var start := if index < 0 then (if length as int + index < 0 then 0 else length as int + index) else index;
    if start < length as int then Some(start as nat) else None
  }

  /** Changing one entry changes the total by the difference of its subtotals. */
  lemma {:induction false} TotalUpdate(entries: seq<CartEntry>, i: nat, e: CartEntry)
    requires i < |entries|
    ensures Total(entries[i := e]) == Total(entries) - Subtotal(entries[i]) + Subtotal(e)
    decreases |entries|
  {
    var n := |entries|;
    var updated := entries[i := e];
    if i < n - 1 {
      assert updated[..n - 1] == entries[..n - 1][i := e];
      TotalUpdate(entries[..n - 1], i, e);
    } else {
      assert updated[..n - 1] == entries[..n - 1];
    }
  }

  /** Appending an entry adds its subtotal to the total. */
  lemma TotalAppend(entries: seq<CartEntry>, e: CartEntry)
    ensures Total(entries + [e]) == Total(entries) + Subtotal(e)
  {
    assert (entries + [e])[..|entries|] == entries;
  }

  /** Replacing an entry by one for the same product keeps the ids unique. */
  lemma UpdateKeepsIdsUnique(entries: seq<CartEntry>, i: nat, e: CartEntry)
    requires i < |entries| && e.productId == entries[i].productId
    ensures IdsUnique(entries) ==> IdsUnique(entries[i := e])
  {
  }

  /** Appending an entry for a product not yet in the cart keeps the ids unique. */
  lemma AppendKeepsIdsUnique(entries: seq<CartEntry>, e: CartEntry)
    requires forall j :: 0 <= j < |entries| ==> entries[j].productId != e.productId
    ensures IdsUnique(entries) ==> IdsUnique(entries + [e])
  {
  }

  /**
   * The cart after `addToCart` with quantity `qty`: below 1 nothing changes;
   * an existing entry for the product only gains the quantity; otherwise a
   * new entry is appended at the end.
   */
  function Added(entries: seq<CartEntry>, productId: Id, productName: string, price: Cents, qty: int): (r: seq<CartEntry>)
    ensures qty <= 0 ==> r == entries
    ensures qty > 0 && IndexOf(entries, productId).Some? ==>
      var k := IndexOf(entries, productId).value;
      && |r| == |entries|
      && (forall j :: 0 <= j < |entries| && j != k ==> r[j] == entries[j])
      && r[k] == entries[k].(quantity := entries[k].quantity + qty)
    ensures qty > 0 && IndexOf(entries, productId).None? ==>
      r == entries + [CartEntry(productId, productName, price, qty)]
  {
    if qty <= 0 then entries
    else match IndexOf(entries, productId)
      case Some(k) => entries[k := entries[k].(quantity := entries[k].quantity + qty)]
      case None => entries + [CartEntry(productId, productName, price, qty)]
  }

  /** The unit price `addToCart` charges: the existing entry's, else the one given. */
  function PriceCharged(entries: seq<CartEntry>, productId: Id, price: Cents): Cents {
    match IndexOf(entries, productId)
    case Some(k) => entries[k].unitPrice
    case None => price
  }

  lemma MulAddRight(p: int, a: int, b: int)
    ensures p * (a + b) == p * a + b * p
  {
  }

  /** Adding keeps the product ids unique. */
  lemma AddedKeepsIdsUnique(entries: seq<CartEntry>, productId: Id, productName: string, price: Cents, qty: int)
    requires IdsUnique(entries)
    ensures IdsUnique(Added(entries, productId, productName, price, qty))
  {
    if qty > 0 {
      match IndexOf(entries, productId)
      case Some(k) =>
        UpdateKeepsIdsUnique(entries, k, entries[k].(quantity := entries[k].quantity + qty));
      case None =>
        AppendKeepsIdsUnique(entries, CartEntry(productId, productName, price, qty));
    }
  }

  /** Adding grows the total by the quantity times the unit price charged. */
  lemma AddedTotal(entries: seq<CartEntry>, productId: Id, productName: string, price: Cents, qty: int)
    requires qty > 0
    ensures Total(Added(entries, productId, productName, price, qty))
      == Total(entries) + qty * PriceCharged(entries, productId, price)
  {
    match IndexOf(entries, productId)
    case Some(k) =>
      var e := entries[k].(quantity := entries[k].quantity + qty);
      TotalUpdate(entries, k, e);
      assert Subtotal(e) == Subtotal(entries[k]) + qty * e.unitPrice by {
        MulAddRight(e.unitPrice, entries[k].quantity, qty);
      }
    case None =>
      TotalAppend(entries, CartEntry(productId, productName, price, qty));
  }

  /** Removing one entry takes its subtotal off the total. */
  lemma {:induction false} TotalRemove(entries: seq<CartEntry>, i: nat)
    requires i < |entries|
    ensures Total(entries[..i] + entries[i + 1..]) == Total(entries) - Subtotal(entries[i])
    decreases |entries|
  {
    var n := |entries|;
    var removed := entries[..i] + entries[i + 1..];
    if i == n - 1 {
      assert removed == entries[..n - 1];
    } else {
      var shorter := entries[..n - 1];
      assert removed[..|removed| - 1] == shorter[..i] + shorter[i + 1..];
      assert removed[|removed| - 1] == entries[n - 1];
      TotalRemove(shorter, i);
    }
  }

  /** The customer fields of the billing form (a missing field reads as ""). */
  datatype CustomerForm = CustomerForm(name: string, phone: string, email: string, address: string)

  /** The request line sent for one cart entry. */
  function LineOf(e: CartEntry): LineInput {
    LineInput(e.productId, e.quantity, e.unitPrice, Subtotal(e))
  }

  /** The subtotals of the request lines, summed. */
  function SumSubtotals(lines: seq<LineInput>): Cents
    decreases |lines|
  {
    if lines == [] then 0 else SumSubtotals(lines[..|lines| - 1]) + lines[|lines| - 1].subtotal
  }

  /** The request lines sum to the cart's grand total. */
  lemma {:induction false} LinesSumToTotal(entries: seq<CartEntry>, lines: seq<LineInput>)
    requires |lines| == |entries|
    requires forall k :: 0 <= k < |entries| ==> lines[k] == LineOf(entries[k])
    ensures SumSubtotals(lines) == Total(entries)
    decreases |entries|
  {
    if entries != [] {
      var n := |entries|;
      LinesSumToTotal(entries[..n - 1], lines[..n - 1]);
    }
  }

  /**
   * The server stores whatever total it is sent. For a request built by
   * the cart that total is the sum of the subtotals, so the sale it creates
   * has a total equal to the sum of its lines' subtotals.
   */
  lemma ClientSaleTotalMatchesLines(db: Db, req: Request, cashier: Id)
    requires db.Valid()
    requires req.items.Some? && req.totalAmount == Some(SumSubtotals(req.items.value))
    requires Bill(db, req, cashier).1.Created?
    ensures var (after, out) := Bill(db, req, cashier);
      && out.saleId in after.sales
      && LinesOfSale(after.items, out.saleId) == ItemsFor(out.saleId, req.items.value)
      && after.sales[out.saleId].totalAmount == SumItemSubtotals(LinesOfSale(after.items, out.saleId))
  {
    var (after, out) := Bill(db, req, cashier);
    var id := out.saleId;
    var lines := req.items.value;
    BillCreated(db, req, cashier);
    var added := ItemsFor(id, lines);
    assert after.items == db.items + added;
    forall k | 0 <= k < |db.items|
      ensures db.items[k].sale != id
    {
      assert db.items[k].sale in db.sales;
    }
    LinesOfNewSale(db.items, added, id);
    SubtotalsAgree(added, lines);
  }

  lemma {:induction false} SubtotalsAgree(items: seq<SaleItem>, lines: seq<LineInput>)
    requires |items| == |lines|
    requires forall k :: 0 <= k < |lines| ==> items[k].subtotal == lines[k].subtotal
    ensures SumItemSubtotals(items) == SumSubtotals(lines)
    decreases |lines|
  {
    if lines != [] {
      var n := |lines|;
      SubtotalsAgree(items[..n - 1], lines[..n - 1]);
    }
  }

  class Cart {
    /** The page's `cart` array. */
    var entries: seq<CartEntry>
    /** The text of the grand-total element, as a number. */
    var shownTotal: Cents

    ghost predicate Valid()
      reads this
    {
      IdsUnique(entries) && shownTotal == Total(entries)
    }

    /** The page after loading: an empty cart and its total rendered. */
    constructor ()
      ensures Valid() && entries == [] && shownTotal == 0
    {
      entries := [];
      shownTotal := 0;
    }

    /** `updateCart`: re-renders the rows and the grand total. */
    method UpdateCart()
      modifies this`shownTotal
      ensures shownTotal == Total(entries)
    {
      var total := 0;
      var i := 0;
      while i < |entries|
        invariant 0 <= i <= |entries|
        invariant total == Total(entries[..i])
      {
        assert entries[..i + 1][..i] == entries[..i];
        total := total + Subtotal(entries[i]);
        i := i + 1;
      }
      assert entries[..i] == entries;
      shownTotal := total;
    }

    /**
     * `addToCart`: a quantity below 1 is refused; otherwise the cart becomes
     * `Added` of the old cart and the total is re-rendered.
     */
    method AddToCart(productId: Id, productName: string, price: Cents, qtyInput: Option<int>)
      requires Valid()
      modifies this
      ensures Valid()
      ensures entries == Added(old(entries), productId, productName, price, EffectiveQty(qtyInput))
      ensures shownTotal == old(shownTotal)
        + (if EffectiveQty(qtyInput) < 0 then 0 else EffectiveQty(qtyInput) * PriceCharged(old(entries), productId, price))
    {
      var qty := EffectiveQty(qtyInput);
      if qty <= 0 {
        return;
      }
      AddedKeepsIdsUnique(entries, productId, productName, price, qty);
      AddedTotal(entries, productId, productName, price, qty);
      entries := Added(entries, productId, productName, price, qty);
      UpdateCart();
    }

    /**
     * `updateCartItem`: a quantity of 0 or less is ignored; an index with no
     * entry fails (the handler throws) and changes nothing; otherwise only
     * that entry's quantity changes.
     */
    method UpdateCartItem(index: int, newQty: int)
      requires Valid()
      modifies this
      ensures Valid()
      ensures newQty <= 0 || !(0 <= index < |old(entries)|) ==> entries == old(entries)
      ensures newQty > 0 && 0 <= index < |old(entries)| ==>
        entries == old(entries)[index := old(entries)[index].(quantity := newQty)]
        && shownTotal == old(shownTotal) + old(entries)[index].unitPrice * (newQty - old(entries)[index].quantity)
    {
      if newQty <= 0 {
        return;
      }
      if !(0 <= index < |entries|) {
        return;
      }
      TotalUpdate(entries, index, entries[index].(quantity := newQty));
      entries := entries[index := entries[index].(quantity := newQty)];
      UpdateCart();
    }

    /** `removeFromCart`: drops the entry `splice(index, 1)` names; the rest keep their order. */
    method RemoveFromCart(index: int)
      requires Valid()
      modifies this
      ensures Valid()
      ensures SpliceIndex(index, |old(entries)|).None? ==> entries == old(entries)
      ensures SpliceIndex(index, |old(entries)|).Some? ==>
        var k := SpliceIndex(index, |old(entries)|).value;
        entries == old(entries)[..k] + old(entries)[k + 1..]
        && shownTotal == old(shownTotal) - Subtotal(old(entries)[k])
    {
      var k := SpliceIndex(index, |entries|);
      if k.Some? {
        TotalRemove(entries, k.value);
        entries := entries[..k.value] + entries[k.value + 1..];
      }
      UpdateCart();
    }

    /**
     * `generateInvoice`: nothing is sent for an empty cart, nor when a name
     * is filled in but the phone is blank; otherwise the body sent carries the
     * form, one line per entry with its subtotal, the shown grand total and
     * the chosen payment method.
     */
    method GenerateInvoice(form: CustomerForm, paymentMethod: string) returns (r: Option<Request>)
      requires Valid()
      ensures r.None? <==> entries == [] || (IsBlank(form.phone) && !IsBlank(form.name))
      ensures r.Some? ==>
        && r.value.customer == Some(CustomerInput(Some(form.name), Some(form.phone), Some(form.email), Some(form.address)))
        && r.value.paymentMethod == Some(paymentMethod)
        && r.value.items.Some? && |r.value.items.value| == |entries|
        && (forall k :: 0 <= k < |entries| ==>
              var line := r.value.items.value[k];
              line.productId == entries[k].productId && line.quantity == entries[k].quantity
              && line.unitPrice == entries[k].unitPrice
              && line.subtotal == entries[k].unitPrice * entries[k].quantity)
        && r.value.totalAmount == Some(SumSubtotals(r.value.items.value))
    {
      TrimEmptyIffBlank(form.phone);
      TrimEmptyIffBlank(form.name);
      if |entries| == 0 {
        return None;
      }
      if Trim(form.phone) == "" && Trim(form.name) != "" {
        return None;
      }
      var lines := seq(|entries|, k requires 0 <= k < |entries| reads this => LineOf(entries[k]));
      LinesSumToTotal(entries, lines);
      var customer := CustomerInput(Some(form.name), Some(form.phone), Some(form.email), Some(form.address));
      r := Some(Request(Some(customer), Some(shownTotal), Some(paymentMethod), Some(lines)));
    }
  }

  /** The cookie `cookie` (already trimmed) is the one called `name`. */
  predicate CookieNamed(cookie: string, name: string) {
    |cookie| >= |name| + 1 && cookie[..|name| + 1] == name + "="
  }

  /** Comparing `cookie.substring(0, name.length + 1)` with `name + "="` tests that prefix. */
  lemma HeadIsPrefixTest(cookie: string, name: string)
    ensures Head(cookie, |name| + 1) == name + "=" <==> CookieNamed(cookie, name)
  {
  }

  /** No piece of the cookie string, trimmed, is the cookie called `name`. */
  predicate NoneNamed(parts: seq<string>, name: string) {
    forall k :: 0 <= k < |parts| ==> !CookieNamed(Trim(parts[k]), name)
  }

  /** Piece k, trimmed, is the first cookie called `name`. */
  predicate FirstNamed(parts: seq<string>, name: string, k: int) {
    0 <= k < |parts| && CookieNamed(Trim(parts[k]), name) && NoneNamed(parts[..k], name)
  }

  /**
   * `getCookie`: the decoded value of the first `;`-separated cookie that,
   * once trimmed, starts with `name=`; None when there is none.
   */
  method GetCookie(documentCookie: string, name: string, decode: string -> string) returns (r: Option<string>)
    ensures documentCookie == "" ==> r.None?
    ensures documentCookie != "" && r.None? ==> NoneNamed(Split(documentCookie, ';'), name)
    ensures r.Some? ==>
      && documentCookie != ""
      && exists k :: FirstNamed(Split(documentCookie, ';'), name, k)
           && r.value == decode(Trim(Split(documentCookie, ';')[k])[|name| + 1..])
  {
    r := None;
    if documentCookie != "" {
      var cookies := Split(documentCookie, ';');
      var i := 0;
      while i < |cookies|
        invariant 0 <= i <= |cookies|
        invariant NoneNamed(cookies[..i], name)
      {
        var cookie := Trim(cookies[i]);
        HeadIsPrefixTest(cookie, name);
        if Head(cookie, |name| + 1) == name + "=" {
          assert FirstNamed(cookies, name, i);
          r := Some(decode(cookie[|name| + 1..]));
          return;
        }
        assert cookies[..i + 1] == cookies[..i] + [cookies[i]];
        i := i + 1;
      }
      assert cookies[..i] == cookies;
    }
  }
}

=== FILE: database.dfy ===
/**
 * The shop's tables as one value, the constraints the database keeps on
 * them (column checks, unique columns, foreign keys, automatic ids), and
 * what the foreign keys' deletion rules do to the other tables.
 */
module Database {
  import opened Wrappers
  import opened Models

  datatype Db = Db(
    products: map<Id, Product>,
    customers: map<Id, Customer>,
    sales: map<Id, Sale>,
    items: seq<SaleItem>,
    nextCustomerId: Id,
    nextSaleId: Id)
  {
    /** What every state of the database satisfies. */
    predicate Valid() {
      && (forall p :: p in products ==> products[p].Valid())
      && SkusUnique(products)
      && InvoicesUnique(sales)
      && 1 <= nextCustomerId && 1 <= nextSaleId
      && (forall c :: c in customers ==> 1 <= c < nextCustomerId)
      && (forall s :: s in sales ==> 1 <= s < nextSaleId)
      && (forall s :: s in sales && sales[s].customer.Some? ==> sales[s].customer.value in customers)
      && (forall i :: 0 <= i < |items| ==>
            items[i].Valid() && items[i].sale in sales && items[i].product in products)
    }
  }

  /** An empty database. */
  const Empty: Db := Db(map[], map[], map[], [], 1, 1)

  lemma EmptyValid()
    ensures Empty.Valid()
  {
  }

  /** The rows of `items` that `keep` accepts, in their order. */
  function Filter(items: seq<SaleItem>, keep: SaleItem -> bool): (r: seq<SaleItem>)
    ensures |r| <= |items|
    ensures forall x :: x in r <==> x in items && keep(x)
  {
    if items == [] then []
    else (if keep(items[0]) then [items[0]] else []) + Filter(items[1..], keep)
  }

  /** Filtering keeps the relative order of the rows it keeps. */
  lemma {:induction false} FilterAppend(a: seq<SaleItem>, b: seq<SaleItem>, keep: SaleItem -> bool)
    ensures Filter(a + b, keep) == Filter(a, keep) + Filter(b, keep)
    decreases |a|
  {
    if a != [] {
      assert (a + b)[1..] == a[1..] + b;
      FilterAppend(a[1..], b, keep);
    } else {
      assert a + b == b;
    }
  }

  lemma {:induction false} FilterAll(items: seq<SaleItem>, keep: SaleItem -> bool)
    requires forall k :: 0 <= k < |items| ==> keep(items[k])
    ensures Filter(items, keep) == items
    decreases |items|
  {
    if items != [] {
      FilterAll(items[1..], keep);
    }
  }

  lemma {:induction false} FilterNone(items: seq<SaleItem>, keep: SaleItem -> bool)
    requires forall k :: 0 <= k < |items| ==> !keep(items[k])
    ensures Filter(items, keep) == []
    decreases |items|
  {
    if items != [] {
      FilterNone(items[1..], keep);
    }
  }

  /** Filtering keeps every copy of a row it keeps, and no copy of a row it drops. */
  lemma {:induction false} FilterCount(items: seq<SaleItem>, keep: SaleItem -> bool)
    ensures forall x :: multiset(Filter(items, keep))[x] == if keep(x) then multiset(items)[x] else 0
    decreases |items|
  {
    if items != [] {
      FilterCount(items[1..], keep);
      assert items == [items[0]] + items[1..];
    }
  }

  /** The lines of one sale, in the order they were written. */
  function LinesOfSale(items: seq<SaleItem>, sale: Id): seq<SaleItem> {
    Filter(items, (x: SaleItem) => x.sale == sale)
  }

  /** Lines appended for a sale no earlier line belongs to are exactly that sale's lines. */
  lemma LinesOfNewSale(items: seq<SaleItem>, added: seq<SaleItem>, sale: Id)
    requires forall k :: 0 <= k < |items| ==> items[k].sale != sale
    requires forall k :: 0 <= k < |added| ==> added[k].sale == sale
    ensures LinesOfSale(items + added, sale) == added
  {
    var keep := (x: SaleItem) => x.sale == sale;
    FilterAppend(items, added, keep);
    FilterNone(items, keep);
    FilterAll(added, keep);
  }

  /** The subtotals of some sale lines, summed. */
  function SumItemSubtotals(items: seq<SaleItem>): Cents
    decreases |items|
  {
    if items == [] then 0 else SumItemSubtotals(items[..|items| - 1]) + items[|items| - 1].subtotal
  }

  /** Deleting a sale deletes its lines (the line's sale key cascades). */
  function DeleteSale(db: Db, id: Id): (r: Db)
    ensures r.sales == db.sales - {id}
    ensures forall x :: x in r.items <==> x in db.items && x.sale != id
    ensures forall x :: multiset(r.items)[x] == if x.sale != id then multiset(db.items)[x] else 0
    ensures r.products == db.products && r.customers == db.customers
    ensures r.nextCustomerId == db.nextCustomerId && r.nextSaleId == db.nextSaleId
    ensures db.Valid() ==> r.Valid()
  {
    FilterCount(db.items, (x: SaleItem) => x.sale != id);
    db.(sales := db.sales - {id}, items := Filter(db.items, (x: SaleItem) => x.sale != id))
  }

  /** Deleting a product deletes the lines that sold it (the line's product key cascades). */
  function DeleteProduct(db: Db, id: Id): (r: Db)
    ensures r.products == db.products - {id}
    ensures forall x :: x in r.items <==> x in db.items && x.product != id
    ensures forall x :: multiset(r.items)[x] == if x.product != id then multiset(db.items)[x] else 0
    ensures r.sales == db.sales && r.customers == db.customers
    ensures r.nextCustomerId == db.nextCustomerId && r.nextSaleId == db.nextSaleId
    ensures db.Valid() ==> r.Valid()
  {
    FilterCount(db.items, (x: SaleItem) => x.product != id);
    var r := db.(products := db.products - {id}, items := Filter(db.items, (x: SaleItem) => x.product != id));
    assert db.Valid() ==> SkusUnique(r.products);
    r
  }

  /**
   * Deleting a customer keeps their sales and clears the sales' customer
   * reference (the sale's customer key is set to null).
   */
  function DeleteCustomer(db: Db, id: Id): (r: Db)
    ensures r.customers == db.customers - {id}
    ensures r.sales.Keys == db.sales.Keys
    ensures forall s :: s in db.sales ==>
      r.sales[s] == if db.sales[s].customer == Some(id) then db.sales[s].(customer := None) else db.sales[s]
    ensures r.products == db.products && r.items == db.items
    ensures r.nextCustomerId == db.nextCustomerId && r.nextSaleId == db.nextSaleId
    ensures db.Valid() ==> r.Valid()
  {
    var sales := map s | s in db.sales ::
      if db.sales[s].customer == Some(id) then db.sales[s].(customer := None) else db.sales[s];
    var r := db.(customers := db.customers - {id}, sales := sales);
    assert db.Valid() ==> InvoicesUnique(r.sales) by {
      if db.Valid() {
        forall a, b | a in r.sales && b in r.sales && a != b
          ensures r.sales[a].invoiceNo != r.sales[b].invoiceNo
        {
          assert r.sales[a].invoiceNo == db.sales[a].invoiceNo;
          assert r.sales[b].invoiceNo == db.sales[b].invoiceNo;
        }
      }
    }
    r
  }

  /** Keeping some of the sales, and only lines of kept sales, keeps the constraints. */
  lemma KeptRowsValid(db: Db, sales: map<Id, Sale>, items: seq<SaleItem>)
    requires db.Valid()
    requires forall s :: s in sales ==> s in db.sales && sales[s] == db.sales[s]
    requires forall x :: x in items ==> x in db.items && x.sale in sales
    ensures db.(sales := sales, items := items).Valid()
  {
    forall i | 0 <= i < |items|
      ensures items[i].Valid() && items[i].sale in sales && items[i].product in db.products
    {
      assert items[i] in db.items;
    }
  }

  /**
   * Deleting a cashier's user account deletes the sales they rang up (the
   * sale's cashier key cascades), and with them those sales' lines.
   */
  function DeleteCashier(db: Db, cashier: Id): (r: Db)
    ensures forall s :: s in r.sales <==> s in db.sales && db.sales[s].cashier != cashier
    ensures forall s :: s in r.sales ==> r.sales[s] == db.sales[s]
    ensures forall x :: x in r.items <==> x in db.items && x.sale in r.sales
    ensures forall x :: multiset(r.items)[x] == if x.sale in r.sales then multiset(db.items)[x] else 0
    ensures r.products == db.products && r.customers == db.customers
    ensures r.nextCustomerId == db.nextCustomerId && r.nextSaleId == db.nextSaleId
    ensures db.Valid() ==> r.Valid()
  {
    var sales := map s | s in db.sales && db.sales[s].cashier != cashier :: db.sales[s];
    var items := Filter(db.items, (x: SaleItem) => x.sale in sales);
    FilterCount(db.items, (x: SaleItem) => x.sale in sales);
    var r := db.(sales := sales, items := items);
    assert db.Valid() ==> r.Valid() by {
      if db.Valid() {
        KeptRowsValid(db, sales, items);
      }
    }
    r
  }
}

=== FILE: invoice.dfy ===
/**
 * Invoice numbers built by the billing view: the text "INV-" followed by a
 * positive sequence number written in decimal and zero-padded to at least
 * four digits, as Python's format specification `04d` does for a
 * non-negative integer.
 */
module Invoice {
  import opened Wrappers

  const Prefix: string := "INV-"
  const Width: nat := 4

  predicate IsDigit(c: char) { '0' <= c <= '9' }

  function DigitChar(d: nat): (c: char)
    requires d < 10
    ensures IsDigit(c) && c as int - '0' as int == d
  {
    ('0' as int + d) as char
  }

  /** Decimal digits of n, most significant first, with no leading zero. */
  function Digits(n: nat): (s: string)
    ensures 1 <= |s|
    ensures forall i :: 0 <= i < |s| ==> IsDigit(s[i])
    ensures n >= 10 ==> s[0] != '0'
    decreases n
  {
    if n < 10 then [DigitChar(n)] else Digits(n / 10) + [DigitChar(n % 10)]
  }

  function Zeros(k: nat): (s: string)
    ensures |s| == k && forall i :: 0 <= i < k ==> s[i] == '0'
  {
    if k == 0 then [] else Zeros(k - 1) + ['0']
  }

  /** `format(n, "04d")` for a non-negative n. */
  function ZeroPad(n: nat): (s: string)
    ensures |s| >= Width
    ensures forall i :: 0 <= i < |s| ==> IsDigit(s[i])
  {
    var d := Digits(n);
    if |d| < Width then Zeros(Width - |d|) + d else d
  }

  /** The invoice number for sequence number n. */
  function InvoiceNo(n: nat): (s: string)
    ensures |s| >= |Prefix| + Width && s[..|Prefix|] == Prefix
  {
    Prefix + ZeroPad(n)
  }

  /** The value of a string of decimal digits (leading zeros allowed). */
  function DigitsValue(s: string): (v: nat)
    requires forall i :: 0 <= i < |s| ==> IsDigit(s[i])
    decreases |s|
  {
    if s == [] then 0
    else
      assert IsDigit(s[|s| - 1]);
      DigitsValue(s[..|s| - 1]) * 10 + (s[|s| - 1] as int - '0' as int)
  }

  /** Reads an invoice number back: the prefix, then only digits, at least four of them. */
  function ParseInvoiceNo(s: string): (r: Option<nat>)
    ensures r.Some? ==> |s| >= |Prefix| + Width && s[..|Prefix|] == Prefix
  {
    if |s| >= |Prefix| + Width && s[..|Prefix|] == Prefix
       && forall i :: |Prefix| <= i < |s| ==> IsDigit(s[i])
    then Some(DigitsValue(s[|Prefix|..]))
    else None
  }

  lemma {:induction false} DigitsValueOfDigits(n: nat)
    ensures DigitsValue(Digits(n)) == n
    decreases n
  {
    if n >= 10 {
      var d := Digits(n / 10) + [DigitChar(n % 10)];
      assert d[..|d| - 1] == Digits(n / 10);
      DigitsValueOfDigits(n / 10);
    }
  }

  /** Leading zeros do not change the value of a digit string. */
  lemma {:induction false} LeadingZeros(k: nat, s: string)
    requires forall i :: 0 <= i < |s| ==> IsDigit(s[i])
    ensures DigitsValue(Zeros(k) + s) == DigitsValue(s)
    decreases |s|
  {
    var z := Zeros(k) + s;
    if s == [] {
      assert z == Zeros(k);
      ZerosValue(k);
    } else {
      var init := s[..|s| - 1];
      assert z[..|z| - 1] == Zeros(k) + init;
      LeadingZeros(k, init);
    }
  }

  lemma {:induction false} ZerosValue(k: nat)
    ensures DigitsValue(Zeros(k)) == 0
  {
    if k > 0 {
      assert Zeros(k)[..k - 1] == Zeros(k - 1);
      ZerosValue(k - 1);
    }
  }

  /** The digits after "INV-" read back as the number they were built from. */
  lemma InvoiceRoundTrip(n: nat)
    ensures ParseInvoiceNo(InvoiceNo(n)) == Some(n)
  {
    var s := InvoiceNo(n);
    assert s[|Prefix|..] == ZeroPad(n);
    var d := Digits(n);
    DigitsValueOfDigits(n);
    if |d| < Width {
      LeadingZeros(Width - |d|, d);
    }
  }

  /** Distinct sequence numbers give distinct invoice numbers. */
  lemma InvoiceNoInjective(a: nat, b: nat)
    ensures InvoiceNo(a) == InvoiceNo(b) ==> a == b
  {
    InvoiceRoundTrip(a);
    InvoiceRoundTrip(b);
  }

  /** Below 10000 the number is padded to exactly four digits; from there on it is not padded. */
  lemma InvoiceNoLength(n: nat)
    ensures n < 10000 ==> |InvoiceNo(n)| == |Prefix| + Width
    ensures n >= 10000 ==> InvoiceNo(n) == Prefix + Digits(n) && |InvoiceNo(n)| > |Prefix| + Width
  {
    DigitsLength(n);
  }

  function Pow10(k: nat): (p: nat)
    ensures p >= 1
  {
    if k == 0 then 1 else 10 * Pow10(k - 1)
  }

  /** Digits(n) fits in k characters exactly when n < 10^k. */
  lemma {:induction false} DigitsFit(n: nat, k: nat)
    requires k >= 1
    ensures |Digits(n)| <= k <==> n < Pow10(k)
    decreases n
  {
    if n >= 10 {
      if k == 1 {
        assert |Digits(n / 10)| >= 1;
      } else {
        DigitsFit(n / 10, k - 1);
      }
    } else {
      assert Pow10(k) == 10 * Pow10(k - 1);
    }
  }

  lemma DigitsLength(n: nat)
    ensures n < 10000 ==> |Digits(n)| <= Width
    ensures n >= 10000 ==> |Digits(n)| > Width
  {
    assert Pow10(4) == 10000;
    DigitsFit(n, 4);
  }

  /** The first sale's invoice number. */
  lemma FirstInvoiceNo()
    ensures InvoiceNo(1) == "INV-0001"
  {
    assert Digits(1) == "1";
    assert Zeros(3) == "000";
  }
}

=== FILE: models.dfy ===
/**
 * The four record kinds of the shop's database and the constraints their
 * field declarations impose: products, customers, sales and sale lines.
 * Money is held in integer cents.
 */
module Models {
  import opened Wrappers

  /** An amount of money in hundredths (the fields are decimals with two places). */
  type Cents = int

  /** Primary keys: Django's automatic integer ids. */
  type Id = nat

  /** Threshold of the low-stock alert. */
  const LowStockLimit: nat := 5

  datatype Product = Product(
    name: string,
    sku: string,
    category: string,
    supplier: Option<string>,
    quantity: int,
    costPrice: Cents,
    sellingPrice: Cents)
  {
    /** The stock column is a positive-integer field: the database refuses a negative value. */
    predicate Valid() { quantity >= 0 }

    /** The product's low-stock alert. */
    predicate IsLowStock() { quantity < LowStockLimit as int }
  }

  datatype Customer = Customer(
    name: string,
    phone: string,
    email: Option<string>,
    address: Option<string>)

  datatype PaymentMethod = Cash | Card | Upi {
    /** The value stored in the sale's payment-method column. */
    function Code(): (s: string)
      ensures |s| > 0
    {
      match this
      case Cash => "cash"
      case Card => "card"
      case Upi => "upi"
    }
  }

  /** The choice a stored payment-method value denotes, if it is one of the declared choices. */
  function ParsePaymentMethod(s: string): (r: Option<PaymentMethod>)
    ensures r.Some? ==> r.value.Code() == s
  {
    if s == "cash" then Some(Cash)
    else if s == "card" then Some(Card)
    else if s == "upi" then Some(Upi)
    else None
  }

  /** Every declared choice is recognised again from its stored value. */
  lemma PaymentMethodRoundTrip(m: PaymentMethod)
    ensures ParsePaymentMethod(m.Code()) == Some(m)
  {
  }

  /**
   * A sale row. The payment method is kept as the string that was stored:
   * the declared choices are checked by forms, not when a row is created.
   */
  datatype Sale = Sale(
    invoiceNo: string,
    cashier: Id,
    customer: Option<Id>,
    totalAmount: Cents,
    paymentMethod: string)

  datatype SaleItem = SaleItem(
    sale: Id,
    product: Id,
    quantitySold: int,
    unitPrice: Cents,
    subtotal: Cents)
  {
    /** The quantity column is a positive-integer field as well. */
    predicate Valid() { quantitySold >= 0 }
  }

  /** The SKU column is unique. */
  predicate SkusUnique(products: map<Id, Product>) {
    forall a, b :: a in products && b in products && a != b ==> products[a].sku != products[b].sku
  }

  /** The invoice-number column is unique. */
  predicate InvoicesUnique(sales: map<Id, Sale>) {
    forall a, b :: a in sales && b in sales && a != b ==> sales[a].invoiceNo != sales[b].invoiceNo
  }

  /** The dashboard's and the reports page's low-stock query (quantity below 5). */
  function LowStock(products: map<Id, Product>): (r: set<Id>)
    ensures forall id :: id in r <==> id in products && products[id].IsLowStock()
  {
    set id | id in products && products[id].quantity < 5
  }

  /** The billing page's product list (quantity above 0). */
  function InStock(products: map<Id, Product>): set<Id> {
    set id | id in products && products[id].quantity > 0
  }

  /** The reports page's out-of-stock query (quantity equal to 0). */
  function OutOfStock(products: map<Id, Product>): set<Id> {
    set id | id in products && products[id].quantity == 0
  }

  /**
   * With the stock constraint in force every product is either offered for
   * billing or out of stock, never both, and every out-of-stock product is
   * also flagged as low on stock.
   */
  lemma StockFiltersPartition(products: map<Id, Product>)
    requires forall id :: id in products ==> products[id].Valid()
    ensures InStock(products) !! OutOfStock(products)
    ensures InStock(products) + OutOfStock(products) == products.Keys
    ensures OutOfStock(products) <= LowStock(products)
  {
  }
}

=== FILE: store.dfy ===
/**
 * The database as the billing view sees it: tables updated in place, one
 * statement at a time. `Billing` is the view's POST path.
 */
module Store {
  import opened Wrappers
  import opened Models
  import opened Database
  import opened Invoice
  import opened Billing

  class Store {
    var products: map<Id, Product>
    var customers: map<Id, Customer>
    var sales: map<Id, Sale>
    var items: seq<SaleItem>
    var nextCustomerId: Id
    var nextSaleId: Id

    /** The tables as one value. */
    function State(): Db
      reads this
    {
      Db(products, customers, sales, items, nextCustomerId, nextSaleId)
    }

    ghost predicate Valid()
      reads this
    {
      State().Valid()
    }

    constructor ()
      ensures Valid() && State() == Empty
    {
      products, customers, sales, items := map[], map[], map[], [];
      nextCustomerId, nextSaleId := 1, 1;
      EmptyValid();
    }

    /** The query for the sale with the highest id. */
    method LastSaleId() returns (r: Option<Id>)
      ensures r == HighestSaleId(sales)
    {
      var rest := sales.Keys;
      r := None;
      while rest != {}
        invariant rest <= sales.Keys
        invariant r.None? ==> rest == sales.Keys
        invariant r.Some? ==> r.value in sales && r.value !in rest
        invariant r.Some? ==> forall s :: s in sales && s !in rest ==> s <= r.value
        decreases rest
      {
        var s :| s in rest;
        if r.None? || s > r.value {
          r := Some(s);
        }
        rest := rest - {s};
      }
    }

    /**
     * Handles a billing request from `cashier`: the state afterwards and the
     * response are those of `Bill`, and the database constraints still hold.
     */
    method Billing(req: Request, cashier: Id) returns (outcome: Outcome)
      requires Valid()
      modifies this
      ensures Valid()
      ensures (State(), outcome) == Bill(old(State()), req, cashier)
    {
      BillPreservesValid(State(), req, cashier);
      var customer := GetOrCreateCustomer(req.customer);
      if customer.Err? {
        return Failed(customer.error);
      }
      var sale := InsertSale(req, cashier, customer.value);
      if sale.Err? {
        return Failed(sale.error);
      }
      if req.items.None? {
        return Failed(MissingItems);
      }
      var err := CreateItems(sale.value, req.items.value);
      outcome := if err.Some? then Failed(err.value) else Created(sale.value);
    }

    /** Get or create the customer, when the request names one. */
    method GetOrCreateCustomer(input: Option<CustomerInput>) returns (r: Result<Option<Id>, Failure>)
      modifies this
      ensures r.Err? ==> State() == old(State())
      ensures ResolveCustomer(old(State()), input) == if r.Ok? then Ok((State(), r.value)) else Err(r.error)
    {
      if input.None? {
        return Err(NoCustomerObject);
      }
      var c := input.value;
      if !NameGiven(c.name) {
        return Ok(None);
      }
      if c.phone.None? {
        return Err(MissingPhone);
      }
      var found := WithPhone(customers, c.phone.value);
      if |found| == 0 {
        var id := nextCustomerId;
        customers := customers[id := NewCustomer(c)];
        nextCustomerId := id + 1;
        return Ok(Some(id));
      } else if |found| == 1 {
        var id :| id in found;
        ghost var spec := ResolveCustomer(State(), input);
        assert spec.Ok? && spec.value.0 == State() && spec.value.1.Some? && spec.value.1.value in found;
        SingletonElement(found, id, spec.value.1.value);
        return Ok(Some(id));
      } else {
        return Err(MultipleCustomers);
      }
    }

    /** Number the invoice and insert the sale row. */
    method InsertSale(req: Request, cashier: Id, customer: Option<Id>) returns (r: Result<Id, Failure>)
      modifies this
      ensures r.Err? ==> State() == old(State())
      ensures CreateSale(old(State()), req, cashier, customer) ==
        if r.Ok? then Ok((State(), r.value)) else Err(r.error)
    {
      if req.totalAmount.None? {
        return Err(MissingTotal);
      }
      if req.paymentMethod.None? {
        return Err(MissingPaymentMethod);
      }
      var last := LastSaleId();
      var invoiceNo := InvoiceNo(SeqAfter(last));
      if InvoiceTaken(sales, invoiceNo) {
        return Err(InvoiceConflict);
      }
      var id := nextSaleId;
      sales := sales[id := Sale(invoiceNo, cashier, customer, req.totalAmount.value, req.paymentMethod.value)];
      nextSaleId := id + 1;
      return Ok(id);
    }

    /** Create the sale lines and take the stock, line by line. */
    method CreateItems(saleId: Id, lines: seq<LineInput>) returns (err: Option<Failure>)
      modifies this
      ensures (State(), err) == ApplyLines(old(State()), saleId, lines)
    {
      var i := 0;
      while i < |lines|
        invariant 0 <= i <= |lines|
        invariant ApplyLines(State(), saleId, lines[i..]) == ApplyLines(old(State()), saleId, lines)
      {
        var line := lines[i];
        assert lines[i..][0] == line && lines[i..][1..] == lines[i + 1..];
        if line.productId !in products {
          return Some(ProductNotFound(line.productId));
        }
        if line.quantity < 0 {
          return Some(NegativeQuantitySold(line.productId));
        }
        var product := products[line.productId];
        items := items + [ItemOf(saleId, line)];
        var remaining := product.quantity - line.quantity;
        if remaining < 0 {
          return Some(NegativeStock(line.productId));
        }
        products := products[line.productId := product.(quantity := remaining)];
        i := i + 1;
      }
      return None;
    }
  }
}

=== FILE: text.dfy ===
/** The JavaScript string operations the cart script relies on. */
module JsText {

  /** ECMAScript WhiteSpace and LineTerminator code points: what `trim` removes. */
  predicate IsWhiteSpace(c: char) {
    || c == '\t' || c == '\n' || c == '\U{000B}' || c == '\U{000C}' || c == '\r' || c == ' '
    || c == '\U{00A0}' || c == '\U{1680}' || ('\U{2000}' <= c <= '\U{200A}')
    || c == '\U{2028}' || c == '\U{2029}' || c == '\U{202F}' || c == '\U{205F}'
    || c == '\U{3000}' || c == '\U{FEFF}'
  }

  predicate IsBlank(s: string) {
    forall i :: 0 <= i < |s| ==> IsWhiteSpace(s[i])
  }

  /** `trimStart`: drops the leading white space and nothing else. */
  function TrimStart(s: string): (r: string)
    ensures |r| <= |s| && r == s[|s| - |r|..]
    ensures IsBlank(s[..|s| - |r|])
    ensures r != [] ==> !IsWhiteSpace(r[0])
  {
    if s != [] && IsWhiteSpace(s[0]) then TrimStart(s[1..]) else s
  }

  /** `trimEnd`: drops the trailing white space and nothing else. */
  function TrimEnd(s: string): (r: string)
    ensures |r| <= |s| && r == s[..|r|]
    ensures IsBlank(s[|r|..])
    ensures r != [] ==> !IsWhiteSpace(r[|r| - 1])
  {
    if s != [] && IsWhiteSpace(s[|s| - 1]) then TrimEnd(s[..|s| - 1]) else s
  }

  /** `trim`. */
  function Trim(s: string): (r: string)
    ensures r != [] ==> !IsWhiteSpace(r[0]) && !IsWhiteSpace(r[|r| - 1])
  {
    TrimEnd(TrimStart(s))
  }

  /** A string trims to nothing exactly when it is all white space. */
  lemma TrimEmptyIffBlank(s: string)
    ensures Trim(s) == [] <==> IsBlank(s)
  {
    var t := TrimStart(s);
    if Trim(s) == [] {
      assert IsBlank(t[0..]);
      assert s == s[..|s| - |t|] + t;
    } else {
      var k := |s| - |t|;
      assert t[0] == s[k];
    }
  }

  /** Trimming finds the same text inside the original, between white-space margins. */
  lemma TrimIsInfix(s: string)
    ensures exists a, b :: 0 <= a <= b <= |s| && Trim(s) == s[a..b] && IsBlank(s[..a]) && IsBlank(s[b..])
  {
    var t := TrimStart(s);
    var a := |s| - |t|;
    var r := TrimEnd(t);
    var b := a + |r|;
    assert t[..|r|] == s[a..b];
    assert t[|r|..] == s[b..];
  }

  /** `split` on a one-character separator: the pieces between separators, at least one. */
  function Split(s: string, sep: char): (r: seq<string>)
    ensures |r| >= 1
    ensures forall k :: 0 <= k < |r| ==> sep !in r[k]
  {
    if s == [] then [""]
    else
      var rest := Split(s[1..], sep);
      if s[0] == sep then [""] + rest else [[s[0]] + rest[0]] + rest[1..]
  }

  /** `join`: the pieces with the separator between them. */
  function Join(parts: seq<string>, sep: char): string
    requires |parts| >= 1
  {
    if |parts| == 1 then parts[0] else parts[0] + [sep] + Join(parts[1..], sep)
  }

  /** Joining the pieces again gives back the original string. */
  lemma {:induction false} SplitJoin(s: string, sep: char)
    ensures Join(Split(s, sep), sep) == s
  {
    if s != [] {
      var rest := Split(s[1..], sep);
      SplitJoin(s[1..], sep);
      if s[0] == sep {
        assert ([""] + rest)[1..] == rest;
      } else {
        var r := [[s[0]] + rest[0]] + rest[1..];
        if |rest| == 1 {
          assert r == [[s[0]] + rest[0]];
        } else {
          assert r[1..] == rest[1..];
          assert Join(rest, sep) == rest[0] + [sep] + Join(rest[1..], sep);
        }
      }
    }
  }

  /** `s.substring(0, n)` for n >= 0: the first n characters, or all of s if it is shorter. */
  function Head(s: string, n: nat): (r: string)
    ensures |r| <= n && r <= s
    ensures |s| >= n ==> |r| == n
    ensures |s| < n ==> r == s
  {
    if |s| <= n then s else s[..n]
  }
}

=== FILE: wrappers.dfy ===
/** Optional values and fallible results used across the model. */
module Wrappers {

  datatype Option<+T> = None | Some(value: T) {
    function GetOr(default: T): T {
      match this
      case Some(v) => v
      case None => default
    }
  }

  datatype Result<+T, +E> = Ok(value: T) | Err(error: E)
}
